=== FILE: README.md ===
# Viewport-reactive controller of the Dropico landing page, in Dafny

This project models the logic of the Dropico landing page that is not markup.
That logic turns scroll offsets, element geometry, intersection flags, window
sizes, timer ticks and clicks into UI state:

- the header style;
- the active navigation section;
- the services, "why" and "drivers" reveal flags, and the one-time expansion of the drivers background;
- the testimonial carousel index and its pixel offset;
- the mobile menu and the hero buttons;
- two parallax primitives, each with a frame throttle;
- the debounced hero-logo sizer;
- the staged reveal of the booking form.

Browser inputs become parameters. Scroll offsets and bounding rectangles are
`real`, since browsers report fractions. Layout offsets and window dimensions
are `int`. Timers, animation frames and observer callbacks are method calls,
made in whatever order the browser would make them.

Files:

- `wrappers.dfy`: `Option`.
- `page.dfy`: module `PageController`, covering app/page.tsx. It has pure functions for the header threshold, the section scan, the button captions, the carousel tiers and offset, and the carousel event trace. Class `Page` holds the component state.
- `parallax.dfy`: module `Parallax`, covering app/hooks/useParallax.ts. It has the offset formulas. Class `ElementParallax` models the `ticking` throttle and class `HeroParallax` the cancel-then-reschedule `rafId` throttle.
- `responsive_size.dfy`: module `ResponsiveSize`, covering app/hooks/useResponsiveSize.ts. It has the tier table with `Math.round`, and class `Sizer` models the 100 ms debounce.
- `scroll_animation.dfy`: module `ScrollAnimation`, covering app/hooks/useScrollAnimation.ts. It has the reveal schedule as functions, and class `FormReveal` holds the observer state, the scheduled timeouts and the animated elements.

Methods on the classes are the model of what changes in place. Their contracts
give the whole new state in terms of the old. The pure functions beside them
are what the lemmas talk about. `ElementScrollBurst`, `HeroScrollBurst`,
`ResizeTrace` and `ResizeBurst` each create a fresh object and replay a trace
of events on it. They state the throttling and debouncing guarantees over a
whole burst of events.

Behaviour of the code that the model follows:

- The scroll handlers in app/page.tsx are not throttled to one run per frame. Only the two parallax hooks are throttled.
- `useParallax` cleanup removes the listener but does not cancel a pending frame. So `ElementParallax.OnFrame` can still run after `Cleanup`.
- The form reveal observer is never torn down after it fires. Each new intersection marks the section again and schedules the whole cascade again (`FormReveal.OnEntries`). Adding a class is idempotent, so the set of animated elements only grows.
- Teardown in app/page.tsx is not symmetric with setup. The model states no symmetry property there.
- There is no form submission handler, so none is modelled.

## Model

| member | source | states |
|---|---|---|
| PageController.HeaderStyleFor | app/page.tsx:58-64 | the header is elevated exactly when the scroll offset exceeds 100 |
| PageController.HeaderBoundary | app/page.tsx:58-64 | an offset of exactly 100 (and anything below) gives the plain style, anything above 100 the elevated one |
| PageController.HeaderMonotone | app/page.tsx:58 | scrolling further down never makes an elevated header plain |
| PageController.ActiveSection | app/page.tsx:70-80 | a non-empty active id is the id of some section whose [top, top+height) contains the position |
| PageController.NoCoverMeansNoSection | app/page.tsx:70-82 | when no section contains the position the active id is "" |
| PageController.LastCoverWins | app/page.tsx:73-80 | the last containing section in document order decides the id, and one without an id yields "" |
| PageController.ScanSections | app/page.tsx:68-82 | the forEach loop with overwriting computes exactly ActiveSection at pageYOffset + 100 |
| PageController.ServicesExpanded | app/page.tsx:149 | expanded iff the section top lies above half the viewport height: always when it has scrolled past the top of a non-empty viewport, never while it is below the fold |
| PageController.TrimStart | app/page.tsx:124 | leading whitespace removal leaves a suffix, drops only whitespace and stops at a non-whitespace character |
| PageController.TrimEnd | app/page.tsx:124 | trailing whitespace removal leaves a prefix, drops only whitespace and stops at a non-whitespace character |
| PageController.ButtonTarget | app/page.tsx:123-131 | "BOOK NOW" selects "form", "QUICK CALL" selects "contact" (both iff the trimmed text is that caption), any other or missing text selects nothing |
| PageController.TrimPadded | app/page.tsx:124 | trimming removes exactly the whitespace around a caption |
| PageController.PaddedLabelsAct | app/page.tsx:124-130 | whitespace around a button caption does not change which section it selects |
| PageController.CarouselStep | app/page.tsx:218-220 | a tick advances 0→1→2→0; a pagination dot sets the index to its own value whatever the prior one |
| PageController.RunCarousel | app/page.tsx:218-220 | the index after a trace of interval firings and dot clicks: the start index for an empty trace, the dot's index when the trace ends with a click |
| PageController.Ticks | app/page.tsx:218-220 | n interval firings form a trace of n ticks |
| PageController.TicksAdvance | app/page.tsx:218-220 | n ticks advance the index by n modulo 3 |
| PageController.ThreeTicksReturn | app/page.tsx:218-220 | three ticks return the carousel to its starting card |
| PageController.LastDotWins | app/page.tsx:555-567 | after any history, clicking dot k leaves the index at k |
| PageController.DotTwoThenTick | app/page.tsx:219 | selecting dot 2 and then one tick yields 0 |
| PageController.CardLayoutFor | app/page.tsx:27-44 | the four tiers, each iff its band: (300, 8) up to 480 px, (350, 16) above 480 up to 768, (420, 24) above 768 up to 1200, (450, 32) above 1200; so the width lies in [300, 450] and the gap in [8, 32] |
| PageController.CardLayoutMonotone | app/page.tsx:27-44 | wider viewports never get narrower cards or smaller gaps |
| PageController.ContainerWidth | app/page.tsx:47 | the centring width is the viewport up to 768 px and the fixed 1200 px container above, never more than 1200 |
| PageController.CarouselOffset | app/page.tsx:46-49 | the offset puts the centre of the current card on the centre of the container (viewport width up to 768, else 1200) |
| PageController.CarouselOffsetDecreasing | app/page.tsx:46-49 | for a fixed viewport the offset is strictly decreasing in the index |
| PageController.Page.constructor | app/page.tsx:7-14 | initial state: section "home", all flags false, testimonial 1, width 1200, menu closed |
| PageController.Page.Mount | app/page.tsx:141-228 | the services check (lines 144-158) runs once at mount if the section exists, and the window width is read (line 228) |
| PageController.Page.HandleScroll | app/page.tsx:53-66 | a mounted header takes the style of HeaderStyleFor; an absent header leaves the style unchanged |
| PageController.Page.HandleSectionScroll | app/page.tsx:68-83 | the active section is recomputed from scratch from the sections and pageYOffset + 100 |
| PageController.Page.HandleServicesScroll | app/page.tsx:145-154 | after each scroll the flag equals rect.top < windowHeight·0.5, whatever it was, so it can revert |
| PageController.Page.OnWhyEntries | app/page.tsx:163-176 | the why flag becomes true iff some entry intersects, and is never cleared |
| PageController.Page.OnDriversEntries | app/page.tsx:182-202 | drivers flag only set; background expanded at most once, only if mounted and an entry intersects, and only while not yet expanded |
| PageController.Page.Tick | app/page.tsx:217-220 | one interval firing performs CarouselStep with Tick |
| PageController.Page.SelectTestimonial | app/page.tsx:555-567 | a dot click performs CarouselStep with that dot |
| PageController.Page.CarouselTransform | app/page.tsx:477 | the rendered translation puts the centre of the current card on the centre of the container |
| PageController.Page.HandleResize | app/page.tsx:222-228 | the carousel's window width becomes innerWidth |
| PageController.Page.ToggleMobileMenu | app/page.tsx:85-87 | the menu flag is negated |
| PageController.Page.CloseMobileMenu | app/page.tsx:89-91 | the menu is closed whatever its state |
| PageController.Page.NavLinkClick | app/page.tsx:97-113 | a navigation link click closes the menu |
| PageController.Page.ButtonClick | app/page.tsx:119-131 | the active section becomes ButtonTarget's section, or stays when the text is neither caption |
| Parallax.ResolveOptions | app/hooks/useParallax.ts:9-10 | a given speed or direction is kept and an omitted one becomes 0.5 or down; the hook is enabled unless `enabled` is given as false |
| Parallax.ResolveDefaults | app/hooks/useParallax.ts:9-10 | omitted options default to speed 0.5, direction down, enabled |
| Parallax.Scrolled | app/hooks/useParallax.ts:24-29 | scrolled = windowHeight − rect.top, independent of scrollY |
| Parallax.ElementOffset | app/hooks/useParallax.ts:29-35 | offset = ±(windowHeight − rect.top)·speed, positive sign for 'up' |
| Parallax.DirectionsNegate | app/hooks/useParallax.ts:33-35 | 'up' and 'down' offsets are exact negations |
| Parallax.OffsetIgnoresScroll | app/hooks/useParallax.ts:24-30 | two scroll offsets with the same element rectangle give the same translation |
| Parallax.HeroOffsetsAt | app/hooks/useParallax.ts:72-88 | the background moves slower than the scroll and in its direction, the content slower still and against it; the background moves three times as far as the content; both zero at the top |
| Parallax.ElementParallax.constructor | app/hooks/useParallax.ts:14-56 | disabled: no listener, no handler run, no transform; enabled: listener installed and handler run once synchronously, recording the window's scrollY (0 stays when disabled) and translating the element if mounted |
| Parallax.ElementParallax.HandleScroll | app/hooks/useParallax.ts:17-39 | records scrollY; transforms the element only if it is mounted |
| Parallax.ElementParallax.OnScroll | app/hooks/useParallax.ts:43-51 | a frame is requested only when none is pending: at most one pending frame, ticking iff pending |
| Parallax.ElementParallax.OnFrame | app/hooks/useParallax.ts:45-48 | the frame runs the handler with the window state at frame time, then clears ticking |
| Parallax.ElementParallax.Cleanup | app/hooks/useParallax.ts:58-60 | removes the listener and leaves a pending frame in place |
| Parallax.ElementScrollBurst | app/hooks/useParallax.ts:41-56 | any burst of scroll events before a frame yields exactly one handler run, none if disabled; that run records the frame-time scrollY and translates by the frame-time rectangle; without a run the subscription's translation stays |
| Parallax.HeroParallax.constructor | app/hooks/useParallax.ts:71-100 | listener installed, handler run once at subscription, no frame pending and no id handed out yet |
| Parallax.HeroParallax.HandleScroll | app/hooks/useParallax.ts:72-88 | each mounted layer gets its HeroOffsetsAt translation; absent layers keep theirs |
| Parallax.HeroParallax.OnScroll | app/hooks/useParallax.ts:92-97 | the pending frame is cancelled and a new id requested: the only pending frame is the newest, which is also the last id handed out |
| Parallax.HeroParallax.OnFrame | app/hooks/useParallax.ts:72-96 | a pending frame runs the handler and leaves nothing pending |
| Parallax.HeroParallax.Cleanup | app/hooks/useParallax.ts:102-107 | listener removed and pending frame cancelled: nothing pending |
| Parallax.HeroScrollBurst | app/hooks/useParallax.ts:90-100 | any burst of scroll events yields exactly one handler run; both the background and the content take their translation from the scroll at frame time |
| ResponsiveSize.Round | app/hooks/useResponsiveSize.ts:64-68 | Math.round gives the integer within (x − ½, x + ½] |
| ResponsiveSize.CalculateSize | app/hooks/useResponsiveSize.ts:40-68 | width = height; 800 iff width ≥ 1200, 700 iff 820 ≤ width < 1200, 600 iff 480 ≤ width < 820, 500 iff width < 480; desktop margin 10; lower tiers' margins at least their floors 100, 80, 60 |
| ResponsiveSize.WidthMonotone | app/hooks/useResponsiveSize.ts:40-60 | the logo width is non-decreasing in viewport width, whatever the heights |
| ResponsiveSize.DesktopIgnoresHeight | app/hooks/useResponsiveSize.ts:40-44 | width ≥ 1200 gives {800, 800, 10} for every height |
| ResponsiveSize.FourTiersReached | app/hooks/useResponsiveSize.ts:40-60 | each of the four widths is reached at the tier boundaries 1200, 820, 480, 479 |
| ResponsiveSize.TabletMarginExample | app/hooks/useResponsiveSize.ts:45-49 | width 900 and height 1000 give {700, 700, 250} |
| ResponsiveSize.MarginFloorsAndShares | app/hooks/useResponsiveSize.ts:45-60 | below desktop, a viewport up to 400 px high gets exactly the tier's floor (100, 80, 60), and one at least 400 px high gets the rounded share 0.25, 0.2 or 0.15 of its height |
| ResponsiveSize.MarginMonotoneInHeight | app/hooks/useResponsiveSize.ts:45-60 | below desktop, a taller viewport never gets a smaller margin |
| ResponsiveSize.Sizer.constructor | app/hooks/useResponsiveSize.ts:12-16 | before the first computation the size is {0, 0, 0} and no timer is pending |
| ResponsiveSize.Sizer.Compute | app/hooks/useResponsiveSize.ts:23-70 | the size becomes CalculateSize of the current window |
| ResponsiveSize.Sizer.Mount | app/hooks/useResponsiveSize.ts:73-85 | one immediate computation, then the resize listener |
| ResponsiveSize.Sizer.OnResize | app/hooks/useResponsiveSize.ts:78-81 | the pending timer is replaced by one due 100 ms later: at most one is pending |
| ResponsiveSize.Sizer.OnTimeout | app/hooks/useResponsiveSize.ts:80 | the due timer computes the size from the window at expiry and leaves nothing pending |
| ResponsiveSize.Sizer.Cleanup | app/hooks/useResponsiveSize.ts:88-93 | removes the listener and clears the pending timeout |
| ResponsiveSize.QuietGaps | app/hooks/useResponsiveSize.ts:78-81 | counts the gaps of at least 100 ms between consecutive resize events: fewer than the events, and as many as there are gaps only when every gap is quiet |
| ResponsiveSize.BurstHasNoQuietGap | app/hooks/useResponsiveSize.ts:78-81 | events less than 100 ms apart leave no gap long enough for the timer |
| ResponsiveSize.ResizeTrace | app/hooks/useResponsiveSize.ts:78-81 | over any event trace the size is computed once per gap of ≥ 100 ms plus once 100 ms after the last event |
| ResponsiveSize.ResizeBurst | app/hooks/useResponsiveSize.ts:78-81 | a burst yields exactly one computation, with the dimensions at expiry |
| ScrollAnimation.Triggers | app/hooks/useScrollAnimation.ts:14-16 | an entry starts the cascade iff it intersects and its target is the form section |
| ScrollAnimation.GroupSchedule | app/hooks/useScrollAnimation.ts:27-33 | the form-group timeouts in the order the loop sets them, at most one per group slot |
| ScrollAnimation.GroupScheduleSound | app/hooks/useScrollAnimation.ts:27-33 | only mounted form groups are scheduled, group i at 300 + 100·i ms |
| ScrollAnimation.GroupScheduleComplete | app/hooks/useScrollAnimation.ts:27-33 | every mounted form group is scheduled |
| ScrollAnimation.GroupDelaysIncreasing | app/hooks/useScrollAnimation.ts:27-33 | group timeouts are set in strictly increasing order of delay |
| ScrollAnimation.TriggerSchedulePresence | app/hooks/useScrollAnimation.ts:20-47 | booking card (200), radio group (600) and submit button (1100) are scheduled iff mounted; the section itself is never deferred |
| ScrollAnimation.TriggerSchedule | app/hooks/useScrollAnimation.ts:20-47 | the timeouts of one trigger in source order: at least one per mounted single element, at most three plus one per group slot |
| ScrollAnimation.BookingCardFirst | app/hooks/useScrollAnimation.ts:20-33 | the booking card's timeout precedes every form group's |
| ScrollAnimation.BatchSchedule | app/hooks/useScrollAnimation.ts:13-50 | the timeouts of one observer callback: one cascade per triggering entry, so at most one cascade's worth per entry |
| ScrollAnimation.QuietBatchSchedulesNothing | app/hooks/useScrollAnimation.ts:13-16 | entries that are not intersecting or not the form section schedule nothing |
| ScrollAnimation.FormReveal.constructor | app/hooks/useScrollAnimation.ts:58-60 | the section is observed only if mounted; nothing animated or scheduled |
| ScrollAnimation.FormReveal.Trigger | app/hooks/useScrollAnimation.ts:16-48 | the section is animated at once and exactly TriggerSchedule's timeouts are appended |
| ScrollAnimation.FormReveal.ScheduleIfMounted | app/hooks/useScrollAnimation.ts:20-24 | a single element's timeout is set only if its ref is mounted |
| ScrollAnimation.FormReveal.ScheduleGroups | app/hooks/useScrollAnimation.ts:27-33 | the forEach over the group refs appends exactly GroupSchedule |
| ScrollAnimation.FormReveal.OnEntries | app/hooks/useScrollAnimation.ts:12-50 | the section is animated iff a triggering entry arrives while observing; one cascade is appended per triggering entry; nothing is ever removed |
| ScrollAnimation.FormReveal.OnTimeout | app/hooks/useScrollAnimation.ts:20-47 | a fired timeout only adds 'animate', to form groups always and to ref-read elements only if still mounted |
| ScrollAnimation.FormReveal.Disconnect | app/hooks/useScrollAnimation.ts:62-64 | cleanup disconnects the observer |

## Left out

- Markup, CSS classes, images, inline style strings and header colours are declarative rendering. app/layout.tsx holds only static metadata and is not part of this model.
- Real DOM geometry is not modelled: IntersectionObserver thresholds and root margins, `getBoundingClientRect`, `offsetTop`. Intersection is an input flag and geometry is a set of given numbers.
- `scrollIntoView`, the logo hover styles and the `console.log` call are not modelled. They change no derived state.
- Wall-clock behaviour of `setTimeout`, `setInterval` and `requestAnimationFrame` is not modelled. Callers invoke the callbacks in the order the browser would. Only the resize debounce carries explicit times.
- Frame ids are drawn from a counter kept by `HeroParallax`. The browser's counter is shared with other callers, so real ids can skip values.
- IEEE-754 arithmetic is not modelled: rates and ratios are exact reals, and `Math.round` is floor(x + ½).
- React's lifecycle is not modelled: re-running effects when their dependencies change, re-subscribing `useParallax` when its options change, batched state updates.
- PageController.Page.OnDriversEntries: the guard reads the flag's current value. In the source the callback reads the value captured at render time, and the effect re-runs on the flag change without disconnecting the old observer. So the source can add the 'expanded' class more than once; that is harmless because adding a class is idempotent.
- Teardown of app/page.tsx is not modelled. It removes only some listeners and clears the interval.
- The `typeof window === 'undefined'` branches of useResponsiveSize are not modelled. They apply only to server rendering, where effects do not run.
- `window.pageYOffset || document.documentElement.scrollTop` is a single scroll-offset input.
- `rect.height` in `useParallax` is read but never used, so it is not an input.
- The commented-out previous/next carousel buttons are dead code and are not modelled.
- Form submission is not modelled: the page has no submit handler.
- `Math.round` of the integer logo widths is the identity, so it is not written out.

=== FILE: page.dfy ===
/** The landing page's controller (app/page.tsx): the header style chosen by
    the scroll offset, the active navigation section, the services and
    section-reveal flags, the testimonial carousel, the mobile menu and the
    hero buttons. The DOM is replaced by the values the handlers read from it. */
module PageController {
  import opened Wrappers

  // ------------------------------------------------------------------ header

  /** The two header looks the scroll handler switches between. */
  datatype HeaderStyle = Plain | Elevated

  const HeaderThreshold: real := 100.0

  /** Header style for a page scroll offset: a single threshold, no hysteresis. */
  function HeaderStyleFor(scrollTop: real): (style: HeaderStyle)
    ensures style == Elevated <==> scrollTop > HeaderThreshold
  {
    if scrollTop > HeaderThreshold then Elevated else Plain
  }

  /** Exactly 100 still gives the plain header. */
  lemma HeaderBoundary()
    ensures HeaderStyleFor(100.0) == Plain
    ensures forall y: real :: y <= 100.0 ==> HeaderStyleFor(y) == Plain
    ensures forall y: real :: y > 100.0 ==> HeaderStyleFor(y) == Elevated
  {
  }

  /** Scrolling further down never turns an elevated header plain. */
  lemma HeaderMonotone(y1: real, y2: real)
    requires y1 <= y2 && HeaderStyleFor(y1) == Elevated
    ensures HeaderStyleFor(y2) == Elevated
  {
  }

  // ---------------------------------------------------------- active section

  /** A `section` or `main` element as the scan sees it: its layout offset,
      its layout height and its id attribute, if any. */
  datatype Section = Section(top: int, height: int, id: Option<string>)

  /** The id the scan records for a section: a missing attribute reads as "". */
  function IdText(s: Section): string {
    s.id.GetOr("")
  }

  /** The section's vertical extent [top, top + height) contains `position`. */
  predicate Covers(s: Section, position: real) {
    s.top as real <= position < (s.top + s.height) as real
  }

  /** The active section id: that of the LAST section in document order whose
      extent contains `position`, or "" when none does. */
  function ActiveSection(sections: seq<Section>, position: real): (id: string)
    ensures id != "" ==>
      exists k :: 0 <= k < |sections| && Covers(sections[k], position) && IdText(sections[k]) == id
    decreases |sections|
  {
    if sections == [] then ""
    else
      var n := |sections| - 1;
      if Covers(sections[n], position) then IdText(sections[n])
      else
        var rest := ActiveSection(sections[..n], position);
        assert forall k :: 0 <= k < n ==> sections[..n][k] == sections[k];
        rest
  }

  /** When no section contains the position, the active id is "". */
  lemma {:induction false} NoCoverMeansNoSection(sections: seq<Section>, position: real)
    requires forall k :: 0 <= k < |sections| ==> !Covers(sections[k], position)
    ensures ActiveSection(sections, position) == ""
    decreases |sections|
  {
    if sections != [] {
      var n := |sections| - 1;
      assert forall k :: 0 <= k < n ==> sections[..n][k] == sections[k];
      NoCoverMeansNoSection(sections[..n], position);
    }
  }

  /** Last match wins: the covering section with no covering section after
      it decides the id (which is "" when that section has no id). */
  lemma {:induction false} LastCoverWins(sections: seq<Section>, position: real, k: nat)
    requires k < |sections| && Covers(sections[k], position)
    requires forall j :: k < j < |sections| ==> !Covers(sections[j], position)
    ensures ActiveSection(sections, position) == IdText(sections[k])
    decreases |sections|
  {
    var n := |sections| - 1;
    if k < n {
      assert forall j :: k < j < n ==> sections[..n][j] == sections[j];
      LastCoverWins(sections[..n], position, k);
    }
  }

  /** `handleSectionScroll`'s loop: every section is visited in order and a
      covering one overwrites the id found so far. */
  method ScanSections(sections: seq<Section>, pageYOffset: real) returns (current: string)
    ensures current == ActiveSection(sections, pageYOffset + 100.0)
  {
    current := "";
    var scrollPosition := pageYOffset + 100.0;
    for i := 0 to |sections|
      invariant current == ActiveSection(sections[..i], scrollPosition)
    {
      var section := sections[i];
      if scrollPosition >= section.top as real && scrollPosition < (section.top + section.height) as real {
        current := IdText(section);
      }
      assert sections[..i + 1][..i] == sections[..i];
    }
    assert sections[..|sections|] == sections;
  }

  // --------------------------------------------------------------- services

  /** The services section is shown expanded while its top is above half the
      viewport height. */
  function ServicesExpanded(rectTop: real, windowHeight: int): (expanded: bool)
    ensures expanded <==> 2.0 * rectTop < windowHeight as real
    ensures windowHeight > 0 && rectTop <= 0.0 ==> expanded
    ensures windowHeight >= 0 && rectTop >= windowHeight as real ==> !expanded
  {
    rectTop < windowHeight as real * 0.5
  }

  // ---------------------------------------------------------- hero buttons

  /** The characters JavaScript's `String.prototype.trim` removes: WhiteSpace
      and LineTerminator of the ECMAScript grammar. */
  predicate IsTrimmable(c: char) {
    c == ' ' || c == '\t' || c == '\n' || c == '\r' || c == '\U{000B}' || c == '\U{000C}'
    || c == '\U{00A0}' || c == '\U{FEFF}' || c == '\U{1680}' || ('\U{2000}' <= c <= '\U{200A}')
    || c == '\U{2028}' || c == '\U{2029}' || c == '\U{202F}' || c == '\U{205F}' || c == '\U{3000}'
  }

  predicate AllTrimmable(s: string) {
    forall k :: 0 <= k < |s| ==> IsTrimmable(s[k])
  }

  /** `s` without its leading trimmable characters. */
  function TrimStart(s: string): (r: string)
    ensures |r| <= |s| && r == s[|s| - |r|..]
    ensures AllTrimmable(s[..|s| - |r|])
    ensures r == [] || !IsTrimmable(r[0])
  {
    if s != [] && IsTrimmable(s[0]) then TrimStart(s[1..]) else s
  }

  /** `s` without its trailing trimmable characters. */
  function TrimEnd(s: string): (r: string)
    ensures |r| <= |s| && r == s[..|r|]
    ensures AllTrimmable(s[|r|..])
    ensures r == [] || !IsTrimmable(r[|r| - 1])
  {
    if s != [] && IsTrimmable(s[|s| - 1]) then TrimEnd(s[..|s| - 1]) else s
  }

  function Trim(s: string): string {
    TrimEnd(TrimStart(s))
  }

  /** The section a hero button click selects, from the button's text content
      (absent for a node without text): only the two labelled buttons act. */
  function ButtonTarget(text: Option<string>): (target: Option<string>)
    ensures target == Some("form") <==> text.Some? && Trim(text.value) == "BOOK NOW"
    ensures target == Some("contact") <==> text.Some? && Trim(text.value) == "QUICK CALL"
    ensures target.Some? ==> target.value in {"form", "contact"}
  {
    match text
    case None => None
    case Some(t) =>
      var caption := Trim(t);
      if caption == "BOOK NOW" then Some("form")
      else if caption == "QUICK CALL" then Some("contact")
      else None
  }

  lemma {:induction false} TrimStartSkipsPadding(pad: string, s: string)
    requires AllTrimmable(pad)
    requires s != [] && !IsTrimmable(s[0])
    ensures TrimStart(pad + s) == s
    decreases |pad|
  {
    if pad != [] {
      assert (pad + s)[1..] == pad[1..] + s;
      TrimStartSkipsPadding(pad[1..], s);
    } else {
      assert pad + s == s;
    }
  }

  lemma {:induction false} TrimEndSkipsPadding(s: string, pad: string)
    requires AllTrimmable(pad)
    requires s != [] && !IsTrimmable(s[|s| - 1])
    ensures TrimEnd(s + pad) == s
    decreases |pad|
  {
    if pad != [] {
      var m := |pad| - 1;
      assert (s + pad)[..|s + pad| - 1] == s + pad[..m];
      TrimEndSkipsPadding(s, pad[..m]);
    } else {
      assert s + pad == s;
    }
  }

  /** Trimming strips exactly the padding around a caption that neither
      starts nor ends with a trimmable character. */
  lemma TrimPadded(before: string, caption: string, after: string)
    requires AllTrimmable(before) && AllTrimmable(after)
    requires caption != [] && !IsTrimmable(caption[0]) && !IsTrimmable(caption[|caption| - 1])
    ensures Trim(before + caption + after) == caption
  {
    assert before + caption + after == before + (caption + after);
    TrimStartSkipsPadding(before, caption + after);
    TrimEndSkipsPadding(caption, after);
  }

  /** Whitespace around a label does not change what the button does. */
  lemma PaddedLabelsAct(before: string, after: string)
    requires AllTrimmable(before) && AllTrimmable(after)
    ensures ButtonTarget(Some(before + "BOOK NOW" + after)) == Some("form")
    ensures ButtonTarget(Some(before + "QUICK CALL" + after)) == Some("contact")
  {
    TrimPadded(before, "BOOK NOW", after);
    TrimPadded(before, "QUICK CALL", after);
  }

  // ----------------------------------------------------------------- carousel

  const TestimonialCount: int := 3

  /** An index into the three testimonial cards. */
  type TestimonialIndex = i: int | 0 <= i < TestimonialCount

  /** What changes the current testimonial: the 5 s interval or a pagination dot. */
  datatype CarouselEvent = Tick | SelectDot(k: TestimonialIndex)

  function CarouselStep(current: TestimonialIndex, e: CarouselEvent): (next: TestimonialIndex)
    ensures e.SelectDot? ==> next == e.k
    ensures e.Tick? ==> next == if current == TestimonialCount - 1 then 0 else current + 1
  {
    match e
    case Tick => (current + 1) % TestimonialCount
    case SelectDot(k) => k
  }

  /** The current testimonial after a trace of events. */
  function RunCarousel(start: TestimonialIndex, events: seq<CarouselEvent>): (current: TestimonialIndex)
    ensures events == [] ==> current == start
    ensures events != [] && events[|events| - 1].SelectDot? ==> current == events[|events| - 1].k
    decreases |events|
  {
    if events == [] then start
    else CarouselStep(RunCarousel(start, events[..|events| - 1]), events[|events| - 1])
  }

  function Ticks(n: nat): (events: seq<CarouselEvent>)
    ensures |events| == n && forall k :: 0 <= k < n ==> events[k] == Tick
  {
    if n == 0 then [] else Ticks(n - 1) + [Tick]
  }

  /** n interval ticks advance the index by n, modulo 3. */
  lemma {:induction false} TicksAdvance(start: TestimonialIndex, n: nat)
    ensures RunCarousel(start, Ticks(n)) == (start + n) % TestimonialCount
  {
    if n > 0 {
      assert Ticks(n)[..n - 1] == Ticks(n - 1);
      TicksAdvance(start, n - 1);
    }
  }

  /** Three ticks bring the carousel back to where it was. */
  lemma ThreeTicksReturn(start: TestimonialIndex)
    ensures RunCarousel(start, Ticks(3)) == start
  {
    TicksAdvance(start, 3);
  }

  /** A dot click decides the index whatever came before it. */
  lemma {:induction false} LastDotWins(start: TestimonialIndex, events: seq<CarouselEvent>, k: TestimonialIndex)
    ensures RunCarousel(start, events + [SelectDot(k)]) == k
  {
    assert (events + [SelectDot(k)])[..|events|] == events;
  }

  /** Selecting the last card and then one tick wraps round to the first. */
  lemma DotTwoThenTick(start: TestimonialIndex)
    ensures RunCarousel(start, [SelectDot(2), Tick]) == 0
  {
    assert [SelectDot(2), Tick][..1] == [SelectDot(2)];
    assert [SelectDot(2)][..0] == [];
  }

  /** Card width and gap of the carousel for a viewport width. */
  datatype CardLayout = CardLayout(cardWidth: int, gap: int)

  function CardLayoutFor(windowWidth: int): (c: CardLayout)
    ensures 300 <= c.cardWidth <= 450 && 8 <= c.gap <= 32
    ensures windowWidth <= 480 <==> c == CardLayout(300, 8)
    ensures 480 < windowWidth <= 768 <==> c == CardLayout(350, 16)
    ensures 768 < windowWidth <= 1200 <==> c == CardLayout(420, 24)
    ensures windowWidth > 1200 <==> c == CardLayout(450, 32)
  {
    if windowWidth <= 480 then CardLayout(300, 8)
    else if windowWidth <= 768 then CardLayout(350, 16)
    else if windowWidth <= 1200 then CardLayout(420, 24)
    else CardLayout(450, 32)
  }

  /** Wider viewports never get narrower cards or smaller gaps. */
  lemma CardLayoutMonotone(w1: int, w2: int)
    requires w1 <= w2
    ensures CardLayoutFor(w1).cardWidth <= CardLayoutFor(w2).cardWidth
    ensures CardLayoutFor(w1).gap <= CardLayoutFor(w2).gap
  {
  }

  /** The reference width the carousel centres in: the viewport on mobile
      widths, a fixed 1200 px container otherwise. */
  function ContainerWidth(windowWidth: int): (width: int)
    ensures width <= 1200
    ensures windowWidth <= 768 ==> width == windowWidth
    ensures windowWidth > 768 ==> width == 1200
  {
    if windowWidth <= 768 then windowWidth else 1200
  }

  /** Horizontal translation of the carousel track: it puts the centre of card
      `index` on the centre of the container. */
  function CarouselOffset(windowWidth: int, index: TestimonialIndex): (offset: real)
    ensures var c := CardLayoutFor(windowWidth);
      offset + (index * (c.cardWidth + c.gap)) as real + c.cardWidth as real / 2.0
        == ContainerWidth(windowWidth) as real / 2.0
  {
    var c := CardLayoutFor(windowWidth);
    var totalCardWidth := c.cardWidth + c.gap;
    var centerOffset := (ContainerWidth(windowWidth) - c.cardWidth) as real / 2.0;
    var i: int := index;
    (-i * totalCardWidth) as real + centerOffset
  }

  /** A later card is always further to the left. */
  lemma CarouselOffsetDecreasing(windowWidth: int, i: TestimonialIndex, j: TestimonialIndex)
    requires i < j
    ensures CarouselOffset(windowWidth, j) < CarouselOffset(windowWidth, i)
  {
    var c := CardLayoutFor(windowWidth);
    var step := c.cardWidth + c.gap;
    assert j * step - i * step == (j - i) * step;
    assert (j - i) * step >= step > 0;
  }

  // ------------------------------------------------------------ page state

  /** The component state of the page. `backgroundExpansions` counts how often
      the drivers background was given its 'expanded' class. */
  class Page {
    var activeSection: string
    var headerStyle: Option<HeaderStyle>
    var isServicesExpanded: bool
    var isWhyAnimated: bool
    var isDriversAnimated: bool
    var isDriversBackgroundExpanded: bool
    ghost var backgroundExpansions: nat
    var currentTestimonial: TestimonialIndex
    var windowWidth: int
    var isMobileMenuOpen: bool

    /** The background expansion has happened exactly when its guard flag is set,
        so it happens at most once. */
    ghost predicate Valid()
      reads this
    {
      backgroundExpansions == if isDriversBackgroundExpanded then 1 else 0
    }

    /** The initial render state; the header keeps its stylesheet look
        (`headerStyle == None`) until the first scroll. */
    constructor ()
      ensures Valid()
      ensures activeSection == "home" && headerStyle == None
      ensures !isServicesExpanded && !isWhyAnimated && !isDriversAnimated
      ensures !isDriversBackgroundExpanded && backgroundExpansions == 0
      ensures currentTestimonial == 1 && windowWidth == 1200 && !isMobileMenuOpen
    {
      activeSection := "home";
      headerStyle := None;
      isServicesExpanded := false;
      isWhyAnimated := false;
      isDriversAnimated := false;
      isDriversBackgroundExpanded := false;
      backgroundExpansions := 0;
      currentTestimonial := 1;
      windowWidth := 1200;
      isMobileMenuOpen := false;
    }

    /** The synchronous part of the mount effect: the services check runs once
        when the services section exists, and the window width is read. */
    method Mount(servicesRectTop: Option<real>, windowHeight: int, innerWidth: int)
      requires Valid()
      modifies this`isServicesExpanded, this`windowWidth
      ensures Valid()
      ensures isServicesExpanded == if servicesRectTop.Some?
        then ServicesExpanded(servicesRectTop.value, windowHeight) else old(isServicesExpanded)
      ensures windowWidth == innerWidth
    {
      if servicesRectTop.Some? {
        HandleServicesScroll(servicesRectTop.value, windowHeight);
      }
      windowWidth := innerWidth;
    }

    /** `handleScroll`: restyles the header, if it is mounted. */
    method HandleScroll(scrollTop: real, headerMounted: bool)
      modifies this`headerStyle
      ensures headerStyle == if headerMounted then Some(HeaderStyleFor(scrollTop)) else old(headerStyle)
    {
      if headerMounted {
        headerStyle := Some(HeaderStyleFor(scrollTop));
      }
    }

    /** `handleSectionScroll`: the active section is recomputed from scratch. */
    method HandleSectionScroll(sections: seq<Section>, pageYOffset: real)
      modifies this`activeSection
      ensures activeSection == ActiveSection(sections, pageYOffset + 100.0)
    {
      activeSection := ScanSections(sections, pageYOffset);
    }

    /** `handleServicesScroll`: not one-shot, the flag follows the geometry both ways. */
    method HandleServicesScroll(rectTop: real, windowHeight: int)
      modifies this`isServicesExpanded
      ensures isServicesExpanded == ServicesExpanded(rectTop, windowHeight)
    {
      if rectTop < windowHeight as real * 0.5 {
        isServicesExpanded := true;
      } else {
        isServicesExpanded := false;
      }
    }

    /** The why-section observer callback, one intersection flag per entry:
        the flag is only ever set. */
    method OnWhyEntries(entries: seq<bool>)
      modifies this`isWhyAnimated
      ensures isWhyAnimated == (old(isWhyAnimated) || true in entries)
    {
      for i := 0 to |entries|
        invariant isWhyAnimated == (old(isWhyAnimated) || true in entries[..i])
      {
        if entries[i] {
          isWhyAnimated := true;
        }
        assert entries[..i + 1] == entries[..i] + [entries[i]];
      }
      assert entries[..|entries|] == entries;
    }

    /** The drivers-section observer callback: each intersecting entry expands
        the background if it exists and has not been expanded yet, and marks
        the section animated. */
    method OnDriversEntries(entries: seq<bool>, backgroundMounted: bool)
      requires Valid()
      modifies this`isDriversBackgroundExpanded, this`backgroundExpansions, this`isDriversAnimated
      ensures Valid() && backgroundExpansions <= 1
      ensures isDriversAnimated == (old(isDriversAnimated) || true in entries)
      ensures isDriversBackgroundExpanded
        == (old(isDriversBackgroundExpanded) || (backgroundMounted && true in entries))
      ensures old(isDriversBackgroundExpanded) ==> backgroundExpansions == old(backgroundExpansions)
    {
      for i := 0 to |entries|
        invariant Valid()
        invariant isDriversAnimated == (old(isDriversAnimated) || true in entries[..i])
        invariant isDriversBackgroundExpanded
          == (old(isDriversBackgroundExpanded) || (backgroundMounted && true in entries[..i]))
      {
        if entries[i] {
          if backgroundMounted && !isDriversBackgroundExpanded {
            backgroundExpansions := backgroundExpansions + 1;
            isDriversBackgroundExpanded := true;
          }
          isDriversAnimated := true;
        }
        assert entries[..i + 1] == entries[..i] + [entries[i]];
      }
      assert entries[..|entries|] == entries;
    }

    /** One 5 s interval tick. */
    method Tick()
      modifies this`currentTestimonial
      ensures currentTestimonial == CarouselStep(old(currentTestimonial), CarouselEvent.Tick)
    {
      currentTestimonial := (currentTestimonial + 1) % TestimonialCount;
    }

    /** A click on pagination dot `k`. */
    method SelectTestimonial(k: TestimonialIndex)
      modifies this`currentTestimonial
      ensures currentTestimonial == CarouselStep(old(currentTestimonial), SelectDot(k))
    {
      currentTestimonial := k;
    }

    /** The carousel translation for the current state. */
    function CarouselTransform(): (offset: real)
      reads this
      ensures var c := CardLayoutFor(windowWidth);
        offset + (currentTestimonial * (c.cardWidth + c.gap)) as real + c.cardWidth as real / 2.0
          == ContainerWidth(windowWidth) as real / 2.0
    {
      CarouselOffset(windowWidth, currentTestimonial)
    }

    method HandleResize(innerWidth: int)
      modifies this`windowWidth
      ensures windowWidth == innerWidth
    {
      windowWidth := innerWidth;
    }

    method ToggleMobileMenu()
      modifies this`isMobileMenuOpen
      ensures isMobileMenuOpen == !old(isMobileMenuOpen)
    {
      isMobileMenuOpen := !isMobileMenuOpen;
    }

    method CloseMobileMenu()
      modifies this`isMobileMenuOpen
      ensures !isMobileMenuOpen
    {
      isMobileMenuOpen := false;
    }

    /** A navigation link click: the smooth scroll is the browser's; the menu closes. */
    method NavLinkClick()
      modifies this`isMobileMenuOpen
      ensures !isMobileMenuOpen
    {
      CloseMobileMenu();
    }

    /** A hero button click selects a section by the button's text, if it is
        one of the two labels. */
    method ButtonClick(text: Option<string>)
      modifies this`activeSection
      ensures activeSection == ButtonTarget(text).GetOr(old(activeSection))
    {
      var target := ButtonTarget(text);
      if target.Some? {
        activeSection := target.value;
      }
    }
  }
}

=== FILE: parallax.dfy ===
/** The two parallax primitives of app/hooks/useParallax.ts: a per-element
    offset with configurable speed and direction, throttled by a `ticking`
    flag, and the fixed two-rate hero offsets, throttled by cancelling the
    pending animation frame before requesting a new one. Scroll offsets and
    bounding rectangles are fractional, so they are `real`. */
module Parallax {
  import opened Wrappers

  // ---------------------------------------------------------------- options

  datatype Direction = Up | Down

  /** The hook's argument: each field may be left out. */
  datatype ParallaxOptions = ParallaxOptions(speed: Option<real>, direction: Option<Direction>, enabled: Option<bool>)

  datatype ParallaxConfig = ParallaxConfig(speed: real, direction: Direction, enabled: bool)

  /** Destructuring with defaults: speed 0.5, direction down, enabled. */
  function ResolveOptions(options: ParallaxOptions): (config: ParallaxConfig)
    ensures config.speed == if options.speed.Some? then options.speed.value else 0.5
    ensures config.direction == if options.direction.Some? then options.direction.value else Down
    ensures config.enabled <==> options.enabled != Some(false)
  {
    ParallaxConfig(options.speed.GetOr(0.5), options.direction.GetOr(Down), options.enabled.GetOr(true))
  }

  lemma ResolveDefaults()
    ensures ResolveOptions(ParallaxOptions(None, None, None)) == ParallaxConfig(0.5, Down, true)
  {
  }

  // ---------------------------------------------------------- element offset

  /** The distance the hook calls `scrolled`: the element's absolute top is
      rect.top + scrollY, so the scroll offset cancels out. */
  function Scrolled(scrollY: real, rectTop: real, windowHeight: int): (scrolled: real)
    ensures scrolled == windowHeight as real - rectTop
  {
    var elementTop := rectTop + scrollY;
    scrollY - elementTop + windowHeight as real
  }

  /** The vertical translation applied to the element: `scrolled * speed`,
      downwards for 'up' and upwards for 'down'. */
  function ElementOffset(config: ParallaxConfig, scrollY: real, rectTop: real, windowHeight: int): (offset: real)
    ensures offset == (if config.direction == Up then 1.0 else -1.0) * (windowHeight as real - rectTop) * config.speed
  {
    var rate := Scrolled(scrollY, rectTop, windowHeight) * config.speed;
    if config.direction == Up then rate else -rate
  }

  /** The two directions are exact negations of each other. */
  lemma DirectionsNegate(speed: real, enabled: bool, scrollY: real, rectTop: real, windowHeight: int)
    ensures ElementOffset(ParallaxConfig(speed, Up, enabled), scrollY, rectTop, windowHeight)
         == -ElementOffset(ParallaxConfig(speed, Down, enabled), scrollY, rectTop, windowHeight)
  {
  }

  /** The offset depends only on where the element sits in the viewport. */
  lemma OffsetIgnoresScroll(config: ParallaxConfig, y1: real, y2: real, rectTop: real, windowHeight: int)
    ensures ElementOffset(config, y1, rectTop, windowHeight) == ElementOffset(config, y2, rectTop, windowHeight)
  {
  }

  // ------------------------------------------------------------ hero offsets

  datatype HeroOffsets = HeroOffsets(background: real, content: real)

  /** Hero translations: the background follows the scroll at 0.3, the
      content goes the other way at 0.1. */
  function HeroOffsetsAt(scrollY: real): (h: HeroOffsets)
    ensures h.background == -3.0 * h.content
    ensures scrollY > 0.0 ==> 0.0 < h.background < scrollY
    ensures scrollY > 0.0 ==> -scrollY < h.content < 0.0
    ensures scrollY == 0.0 ==> h == HeroOffsets(0.0, 0.0)
  {
    HeroOffsets(scrollY * 0.3, -(scrollY * 0.1))
  }

  // ---------------------------------------------- useParallax: ticking throttle

  /** One `useParallax` subscription. `pendingFrames` counts the animation
      frames requested and not yet run; `handlerRuns` counts runs of the
      scroll handler; `transform` is the last translation applied to the
      element (None while none was). */
  class ElementParallax {
    const config: ParallaxConfig
    var listening: bool
    var ticking: bool
    var pendingFrames: nat
    var scrollY: real
    var transform: Option<real>
    var handlerRuns: nat

    /** `ticking` is set exactly while a frame is pending, so at most one is;
        a disabled hook has nothing installed and never ran its handler. */
    ghost predicate Valid()
      reads this
    {
      && pendingFrames <= 1
      && (ticking <==> pendingFrames == 1)
      && (!config.enabled ==> !listening && pendingFrames == 0 && handlerRuns == 0 && transform == None)
    }

    /** The effect body: when enabled, the listener is installed and the
        handler runs once synchronously; when disabled, nothing happens.
        `rectTop` is the element's bounding top, None when it is not mounted. */
    constructor (options: ParallaxOptions, windowScrollY: real, rectTop: Option<real>, windowHeight: int)
      ensures Valid()
      ensures config == ResolveOptions(options)
      ensures listening == config.enabled && !ticking && pendingFrames == 0
      ensures handlerRuns == (if config.enabled then 1 else 0)
      ensures scrollY == if config.enabled then windowScrollY else 0.0
      ensures transform == if config.enabled && rectTop.Some?
        then Some(ElementOffset(config, windowScrollY, rectTop.value, windowHeight)) else None
    {
      config := ResolveOptions(options);
      ticking := false;
      pendingFrames := 0;
      scrollY := 0.0;
      transform := None;
      handlerRuns := 0;
      listening := false;
      new;
      if config.enabled {
        listening := true;
        HandleScroll(windowScrollY, rectTop, windowHeight);
      }
    }

    /** `handleScroll`: records the scroll offset and moves the element if mounted. */
    method HandleScroll(windowScrollY: real, rectTop: Option<real>, windowHeight: int)
      modifies this`scrollY, this`transform, this`handlerRuns
      ensures scrollY == windowScrollY && handlerRuns == old(handlerRuns) + 1
      ensures transform == if rectTop.Some?
        then Some(ElementOffset(config, windowScrollY, rectTop.value, windowHeight)) else old(transform)
    {
      scrollY := windowScrollY;
      handlerRuns := handlerRuns + 1;
      if rectTop.Some? {
        transform := Some(ElementOffset(config, windowScrollY, rectTop.value, windowHeight));
      }
    }

    /** A scroll event: a frame is requested only when none is pending. */
    method OnScroll()
      requires Valid()
      modifies this`ticking, this`pendingFrames
      ensures Valid()
      ensures pendingFrames == if listening then 1 else old(pendingFrames)
    {
      if listening && !ticking {
        pendingFrames := pendingFrames + 1;
        ticking := true;
      }
    }

    /** The requested frame runs: the handler reads the window as it is now,
        then the flag is cleared. */
    method OnFrame(windowScrollY: real, rectTop: Option<real>, windowHeight: int)
      requires Valid() && pendingFrames == 1
      modifies this`ticking, this`pendingFrames, this`scrollY, this`transform, this`handlerRuns
      ensures Valid() && !ticking && pendingFrames == 0
      ensures scrollY == windowScrollY && handlerRuns == old(handlerRuns) + 1
      ensures transform == if rectTop.Some?
        then Some(ElementOffset(config, windowScrollY, rectTop.value, windowHeight)) else old(transform)
    {
      pendingFrames := pendingFrames - 1;
      HandleScroll(windowScrollY, rectTop, windowHeight);
      ticking := false;
    }

    /** Cleanup removes the listener only; a pending frame still runs. */
    method Cleanup()
      requires Valid()
      modifies this`listening
      ensures Valid() && !listening
    {
      listening := false;
    }
  }

  /** Subscription with the element at `subscribeRectTop`, a burst of `events`
      scroll events before the next frame, then that frame with the element at
      `frameRectTop` and the window at `frameScrollY`: the handler runs once
      for the whole burst (none when the hook is disabled or there was no
      event), with the geometry read at frame time. Without a run the element
      keeps the translation of the subscription's run. */
  method ElementScrollBurst(options: ParallaxOptions, events: nat, subscribeRectTop: real,
                            frameScrollY: real, frameRectTop: real, windowHeight: int)
    returns (runs: nat, scrollY: real, transform: Option<real>)
    ensures runs == (if ResolveOptions(options).enabled && events > 0 then 1 else 0)
    ensures runs == 1 ==> scrollY == frameScrollY
    ensures runs == 1 ==> transform == Some(ElementOffset(ResolveOptions(options), frameScrollY, frameRectTop, windowHeight))
    ensures runs == 0 && ResolveOptions(options).enabled ==> scrollY == 0.0
    ensures runs == 0 && ResolveOptions(options).enabled ==>
      transform == Some(ElementOffset(ResolveOptions(options), 0.0, subscribeRectTop, windowHeight))
    ensures !ResolveOptions(options).enabled ==> transform == None
  {
    var hook := new ElementParallax(options, 0.0, Some(subscribeRectTop), windowHeight);
    var before := hook.handlerRuns;
    var subscribed := hook.transform;
    for i := 0 to events
      invariant hook.Valid() && hook.handlerRuns == before
      invariant hook.scrollY == 0.0 && hook.transform == subscribed
      invariant hook.listening == hook.config.enabled
      invariant hook.pendingFrames == if hook.config.enabled && i > 0 then 1 else 0
    {
      hook.OnScroll();
    }
    if hook.pendingFrames == 1 {
      hook.OnFrame(frameScrollY, Some(frameRectTop), windowHeight);
    }
    runs := hook.handlerRuns - before;
    scrollY := hook.scrollY;
    transform := hook.transform;
  }

  // ---------------------------------------------- useHeroParallax: rafId throttle

  /** One `useHeroParallax` subscription. Frame request ids are positive;
      `rafId == 0` stands for the variable before its first assignment.
      `pending` holds the ids of the requested frames not yet run or cancelled;
      `lastId` is the last id handed out. */
  class HeroParallax {
    var listening: bool
    var rafId: nat
    var pending: set<nat>
    var lastId: nat
    var background: Option<real>
    var content: Option<real>
    var handlerRuns: nat

    /** At most one frame is pending, and it is the one `rafId` names. */
    ghost predicate Valid()
      reads this
    {
      && pending <= {rafId}
      && 0 !in pending
      && rafId <= lastId
    }

    /** The effect body: installs the listener and runs the handler once. */
    constructor (scrollY: real, backgroundMounted: bool, contentMounted: bool)
      ensures Valid() && listening && rafId == 0 && lastId == 0 && pending == {} && handlerRuns == 1
      ensures background == if backgroundMounted then Some(HeroOffsetsAt(scrollY).background) else None
      ensures content == if contentMounted then Some(HeroOffsetsAt(scrollY).content) else None
    {
      listening := true;
      rafId := 0;
      pending := {};
      lastId := 0;
      background := None;
      content := None;
      handlerRuns := 0;
      new;
      HandleScroll(scrollY, backgroundMounted, contentMounted);
    }

    /** `handleScroll`: moves each hero layer that is mounted. */
    method HandleScroll(scrollY: real, backgroundMounted: bool, contentMounted: bool)
      modifies this`background, this`content, this`handlerRuns
      ensures handlerRuns == old(handlerRuns) + 1
      ensures background == if backgroundMounted then Some(HeroOffsetsAt(scrollY).background) else old(background)
      ensures content == if contentMounted then Some(HeroOffsetsAt(scrollY).content) else old(content)
    {
      handlerRuns := handlerRuns + 1;
      if backgroundMounted {
        background := Some(scrollY * 0.3);
      }
      if contentMounted {
        content := Some(-(scrollY * 0.1));
      }
    }

    /** A scroll event: cancel the pending frame, if any, and request a new one. */
    method OnScroll()
      requires Valid()
      modifies this`rafId, this`pending, this`lastId
      ensures Valid()
      ensures listening ==> rafId == old(lastId) + 1 && lastId == rafId && pending == {rafId}
      ensures !listening ==> rafId == old(rafId) && lastId == old(lastId) && pending == old(pending)
    {
      if listening {
        if rafId != 0 {
          pending := pending - {rafId};
        }
        lastId := lastId + 1;
        rafId := lastId;
        pending := pending + {rafId};
      }
    }

    /** The pending frame `id` runs the handler. */
    method OnFrame(id: nat, scrollY: real, backgroundMounted: bool, contentMounted: bool)
      requires Valid() && id in pending
      modifies this`pending, this`background, this`content, this`handlerRuns
      ensures Valid() && pending == {}
      ensures handlerRuns == old(handlerRuns) + 1
      ensures background == if backgroundMounted then Some(HeroOffsetsAt(scrollY).background) else old(background)
      ensures content == if contentMounted then Some(HeroOffsetsAt(scrollY).content) else old(content)
    {
      pending := pending - {id};
      HandleScroll(scrollY, backgroundMounted, contentMounted);
    }

    /** Cleanup removes the listener and cancels the pending frame. */
    method Cleanup()
      requires Valid()
      modifies this`listening, this`pending
      ensures Valid() && !listening && pending == {}
    {
      listening := false;
      if rafId != 0 {
        pending := pending - {rafId};
      }
    }
  }

  /** A burst of `events` scroll events, then every frame still pending runs:
      only the last request survives, so the handler runs once for the burst
      (none without events) with the offset read when that frame runs. */
  method HeroScrollBurst(events: nat, frameScrollY: real)
    returns (runs: nat, background: Option<real>, content: Option<real>)
    ensures runs == if events > 0 then 1 else 0
    ensures runs == 1 ==> background == Some(HeroOffsetsAt(frameScrollY).background)
    ensures runs == 1 ==> content == Some(HeroOffsetsAt(frameScrollY).content)
  {
    var hero := new HeroParallax(0.0, true, true);
    var before := hero.handlerRuns;
    for i := 0 to events
      invariant hero.Valid() && hero.listening && hero.handlerRuns == before
      invariant hero.pending == if i > 0 then {hero.rafId} else {}
    {
      hero.OnScroll();
    }
    if hero.pending != {} {
      hero.OnFrame(hero.rafId, frameScrollY, true, true);
    }
    runs := hero.handlerRuns - before;
    background := hero.background;
    content := hero.content;
  }
}

=== FILE: responsive_size.dfy ===
/** The hero logo sizer of app/hooks/useResponsiveSize.ts: a four-tier table
    from the viewport to {width, height, marginBottom}, recomputed 100 ms after
    the last of a burst of resize events. Viewport dimensions are integers;
    the margin ratios are exact rationals. */
module ResponsiveSize {
  import opened Wrappers

  datatype Size = Size(width: int, height: int, marginBottom: int)

  /** The hook's state before the first computation. */
  const InitialSize: Size := Size(0, 0, 0)

  const DebounceMs: int := 100

  /** `Math.round`: the nearest integer, halves rounded up. */
  function Round(x: real): (r: int)
    ensures x - 0.5 < r as real <= x + 0.5
  {
    (x + 0.5).Floor
  }

  function Max(a: real, b: real): (m: real)
    ensures m >= a && m >= b && (m == a || m == b)
  {
    if a >= b then a else b
  }

  /** `calculateSize`: desktop (>= 1200), tablet (>= 820), mobile landscape
      (>= 480) and mobile portrait tiers. Below desktop the margin is a share
      of the viewport height with a floor. */
  function CalculateSize(innerWidth: int, innerHeight: int): (s: Size)
    ensures s.width == s.height && s.width in {500, 600, 700, 800}
    ensures s.width == 800 <==> innerWidth >= 1200
    ensures s.width == 700 <==> 820 <= innerWidth < 1200
    ensures s.width == 600 <==> 480 <= innerWidth < 820
    ensures s.width == 500 <==> innerWidth < 480
    ensures innerWidth >= 1200 ==> s.marginBottom == 10
    ensures 820 <= innerWidth < 1200 ==> s.marginBottom >= 100
    ensures 480 <= innerWidth < 820 ==> s.marginBottom >= 80
    ensures innerWidth < 480 ==> s.marginBottom >= 60
  {
    if innerWidth >= 1200 then Size(800, 800, 10)
    else if innerWidth >= 820 then Size(700, 700, Round(Max(innerHeight as real * 0.25, 100.0)))
    else if innerWidth >= 480 then Size(600, 600, Round(Max(innerHeight as real * 0.2, 80.0)))
    else Size(500, 500, Round(Max(innerHeight as real * 0.15, 60.0)))
  }

  /** The logo never shrinks as the viewport widens. */
  lemma WidthMonotone(w1: int, w2: int, h1: int, h2: int)
    requires w1 <= w2
    ensures CalculateSize(w1, h1).width <= CalculateSize(w2, h2).width
  {
  }

  /** The desktop tier ignores the viewport height. */
  lemma DesktopIgnoresHeight(w: int, h: int)
    requires w >= 1200
    ensures CalculateSize(w, h) == Size(800, 800, 10)
  {
  }

  /** Each of the four sizes is reached. */
  lemma FourTiersReached(h: int)
    ensures CalculateSize(1200, h).width == 800 && CalculateSize(820, h).width == 700
    ensures CalculateSize(480, h).width == 600 && CalculateSize(479, h).width == 500
  {
  }

  /** A tablet viewport 1000 px high gets a 250 px margin. */
  lemma TabletMarginExample()
    ensures CalculateSize(900, 1000) == Size(700, 700, 250)
  {
    assert 1000 as real * 0.25 == 250.0;
  }

  /** Below desktop the floor decides up to a 400 px high viewport (100/0.25,
      80/0.2 and 60/0.15 are all 400); above that the margin is the rounded
      share of the height. */
  lemma MarginFloorsAndShares(w: int, h: int)
    requires w < 1200
    ensures h <= 400 ==>
      CalculateSize(w, h).marginBottom == (if w >= 820 then 100 else if w >= 480 then 80 else 60)
    ensures h >= 400 ==>
      CalculateSize(w, h).marginBottom == Round(h as real * (if w >= 820 then 0.25 else if w >= 480 then 0.2 else 0.15))
  {
    assert Round(100.0) == 100 && Round(80.0) == 80 && Round(60.0) == 60;
  }

  /** Below desktop, a taller viewport never gets a smaller margin. */
  lemma MarginMonotoneInHeight(w: int, h1: int, h2: int)
    requires w < 1200 && h1 <= h2
    ensures CalculateSize(w, h1).marginBottom <= CalculateSize(w, h2).marginBottom
  {
    var ratio := if w >= 820 then 0.25 else if w >= 480 then 0.2 else 0.15;
    var floor := if w >= 820 then 100.0 else if w >= 480 then 80.0 else 60.0;
    var a, b := Max(h1 as real * ratio, floor), Max(h2 as real * ratio, floor);
    assert h1 as real * ratio <= h2 as real * ratio;
    assert a <= b;
    assert Round(a) <= Round(b) by {
      assert Round(a) as real <= a + 0.5 <= b + 0.5 < Round(b) as real + 1.0;
    }
  }

  /** The debounced sizer. `timer` is the due time of the pending timeout, if
      any (so at most one is pending); `computations` counts runs of
      `calculateSize`. */
  class Sizer {
    var size: Size
    var listening: bool
    var timer: Option<int>
    var computations: nat

    /** No timeout outlives the listener. */
    ghost predicate Valid()
      reads this
    {
      timer.Some? ==> listening
    }

    /** The hook's first render: nothing computed yet. */
    constructor ()
      ensures Valid() && size == InitialSize && !listening && timer == None && computations == 0
    {
      size := InitialSize;
      listening := false;
      timer := None;
      computations := 0;
    }

    /** `calculateSize` reading the window as it is now. */
    method Compute(innerWidth: int, innerHeight: int)
      modifies this`size, this`computations
      ensures size == CalculateSize(innerWidth, innerHeight) && computations == old(computations) + 1
    {
      size := CalculateSize(innerWidth, innerHeight);
      computations := computations + 1;
    }

    /** The effect body: one immediate computation, then the resize listener. */
    method Mount(innerWidth: int, innerHeight: int)
      requires Valid()
      modifies this`size, this`computations, this`listening
      ensures Valid() && listening && timer == old(timer)
      ensures size == CalculateSize(innerWidth, innerHeight) && computations == old(computations) + 1
    {
      Compute(innerWidth, innerHeight);
      listening := true;
    }

    /** `debouncedCalculateSize` at time `now`: the pending timeout is cleared
        and a new one armed for now + 100 ms. */
    method OnResize(now: int)
      requires Valid()
      modifies this`timer
      ensures Valid()
      ensures timer == if listening then Some(now + DebounceMs) else old(timer)
    {
      if listening {
        timer := None;
        timer := Some(now + DebounceMs);
      }
    }

    /** The pending timeout fires at or after its due time. */
    method OnTimeout(now: int, innerWidth: int, innerHeight: int)
      requires Valid() && timer.Some? && timer.value <= now
      modifies this`timer, this`size, this`computations
      ensures Valid() && timer == None
      ensures size == CalculateSize(innerWidth, innerHeight) && computations == old(computations) + 1
    {
      timer := None;
      Compute(innerWidth, innerHeight);
    }

    /** Cleanup removes the listener and clears the pending timeout. */
    method Cleanup()
      requires Valid()
      modifies this`listening, this`timer
      ensures Valid() && !listening && timer == None
    {
      listening := false;
      timer := None;
    }
  }

  /** The number of gaps of at least 100 ms between consecutive events. */
  function QuietGaps(times: seq<int>): (gaps: nat)
    ensures gaps < |times| || times == []
    ensures gaps == |times| - 1 ==> forall k :: 0 < k < |times| ==> times[k] >= times[k - 1] + DebounceMs
    decreases |times|
  {
    if |times| <= 1 then 0
    else
      var n := |times| - 1;
      QuietGaps(times[..n]) + (if times[n] >= times[n - 1] + DebounceMs then 1 else 0)
  }

  /** A burst, each event less than 100 ms after the one before, has no quiet gap. */
  lemma {:induction false} BurstHasNoQuietGap(times: seq<int>)
    requires forall k :: 0 < k < |times| ==> times[k] < times[k - 1] + DebounceMs
    ensures QuietGaps(times) == 0
    decreases |times|
  {
    if |times| > 1 {
      var n := |times| - 1;
      assert forall k :: 0 <= k < n ==> times[..n][k] == times[k];
      BurstHasNoQuietGap(times[..n]);
    }
  }

  /** Resize events at the ascending `times`, the browser running the pending
      timeout whenever it falls due before the next event, then quiet:
      `calculateSize` runs once per quiet gap and once after the last event,
      100 ms after it, with the dimensions the window has then. */
  method ResizeTrace(times: seq<int>, innerWidth: int, innerHeight: int)
    returns (runs: nat, lastFiredAt: Option<int>, size: Size)
    requires forall k :: 0 < k < |times| ==> times[k - 1] <= times[k]
    ensures runs == if times == [] then 0 else QuietGaps(times) + 1
    ensures times != [] ==> lastFiredAt == Some(times[|times| - 1] + DebounceMs)
    ensures times != [] ==> size == CalculateSize(innerWidth, innerHeight)
  {
    var sizer := new Sizer();
    sizer.Mount(0, 0);
    var before := sizer.computations;
    for i := 0 to |times|
      invariant sizer.Valid() && sizer.listening
      invariant sizer.computations == before + (if i == 0 then 0 else QuietGaps(times[..i]))
      invariant sizer.timer == if i == 0 then None else Some(times[i - 1] + DebounceMs)
    {
      if sizer.timer.Some? && sizer.timer.value <= times[i] {
        sizer.OnTimeout(times[i], innerWidth, innerHeight);
      }
      sizer.OnResize(times[i]);
      assert times[..i + 1][..i] == times[..i];
    }
    assert times[..|times|] == times;
    lastFiredAt := sizer.timer;
    if sizer.timer.Some? {
      sizer.OnTimeout(sizer.timer.value, innerWidth, innerHeight);
    }
    runs := sizer.computations - before;
    size := sizer.size;
  }

  /** A burst of resize events collapses to exactly one computation. */
  method ResizeBurst(times: seq<int>, innerWidth: int, innerHeight: int) returns (runs: nat, size: Size)
    requires times != []
    requires forall k :: 0 < k < |times| ==> times[k - 1] <= times[k] < times[k - 1] + DebounceMs
    ensures runs == 1 && size == CalculateSize(innerWidth, innerHeight)
  {
    BurstHasNoQuietGap(times);
    var firedAt;
    runs, firedAt, size := ResizeTrace(times, innerWidth, innerHeight);
  }
}

=== FILE: scroll_animation.dfy ===
/** The staged reveal of the booking form (app/hooks/useScrollAnimation.ts):
    when the form section intersects the viewport it gets the 'animate' class
    at once, and timeouts add it to the booking card, each form group, the
    radio group and the submit button at fixed delays, skipping elements that
    are not mounted. Intersection is an input flag per observer entry. */
module ScrollAnimation {
  /** The elements the hook holds refs to; form groups by their index in the
      ref array. */
  datatype Target = FormSection | BookingCard | FormGroup(index: nat) | RadioGroup | SubmitButton

  /** A scheduled class addition, `delay` ms after the trigger. */
  datatype Timeout = Timeout(target: Target, delay: nat)

  /** Which refs are mounted when the callback runs; a form group slot may be null. */
  datatype Refs = Refs(bookingCard: bool, formGroups: seq<bool>, radioGroup: bool, submitButton: bool)

  /** An observer entry: whether it intersects and whether its target is the
      form section the ref points at. */
  datatype Entry = Entry(isIntersecting: bool, isFormSection: bool)

  const BookingCardDelay: nat := 200
  const RadioGroupDelay: nat := 600
  const SubmitButtonDelay: nat := 1100

  /** Only an intersecting entry for the form section starts the cascade. */
  function Triggers(e: Entry): (starts: bool)
    ensures starts ==> e.isIntersecting
    ensures starts ==> e.isFormSection
    ensures e.isIntersecting && e.isFormSection ==> starts
  {
    e.isIntersecting && e.isFormSection
  }

  /** Form group `i` is revealed 300 + 100·i ms after the trigger. */
  function GroupDelay(i: nat): nat {
    300 + 100 * i
  }

  /** The timeouts the loop over the form groups sets, in order; null slots
      are skipped. */
  function GroupSchedule(groups: seq<bool>): (s: seq<Timeout>)
    ensures |s| <= |groups|
    decreases |groups|
  {
    if groups == [] then []
    else
      var n := |groups| - 1;
      GroupSchedule(groups[..n]) + (if groups[n] then [Timeout(FormGroup(n), GroupDelay(n))] else [])
  }

  /** Only mounted form groups are scheduled, each at its own delay. */
  lemma {:induction false} GroupScheduleSound(groups: seq<bool>)
    ensures forall t :: t in GroupSchedule(groups) ==>
      t.target.FormGroup? && t.target.index < |groups| && groups[t.target.index]
      && t.delay == GroupDelay(t.target.index)
    decreases |groups|
  {
    if groups != [] {
      var n := |groups| - 1;
      GroupScheduleSound(groups[..n]);
    }
  }

  /** Every mounted form group is scheduled. */
  lemma {:induction false} GroupScheduleComplete(groups: seq<bool>, i: nat)
    requires i < |groups| && groups[i]
    ensures Timeout(FormGroup(i), GroupDelay(i)) in GroupSchedule(groups)
    decreases |groups|
  {
    var n := |groups| - 1;
    if i < n {
      GroupScheduleComplete(groups[..n], i);
    }
  }

  /** Timeouts listed in strictly increasing order of delay. */
  predicate IncreasingDelays(s: seq<Timeout>) {
    forall a, b :: 0 <= a < b < |s| ==> s[a].delay < s[b].delay
  }

  /** Group timeouts are set in strictly increasing order of delay (and so of index). */
  lemma {:induction false} GroupDelaysIncreasing(groups: seq<bool>)
    ensures IncreasingDelays(GroupSchedule(groups))
    decreases |groups|
  {
    if groups != [] {
      var n := |groups| - 1;
      GroupDelaysIncreasing(groups[..n]);
      GroupScheduleSound(groups[..n]);
      var prefix := GroupSchedule(groups[..n]);
      var last: seq<Timeout> := if groups[n] then [Timeout(FormGroup(n), GroupDelay(n))] else [];
      var s := GroupSchedule(groups);
      assert s == prefix + last;
      forall a, b | 0 <= a < b < |s|
        ensures s[a].delay < s[b].delay
      {
        if b < |prefix| {
          assert s[a] == prefix[a] && s[b] == prefix[b];
        } else {
          assert s[a] == prefix[a] && s[b] == last[0];
          assert prefix[a] in prefix;
        }
      }
    }
  }

  /** The timeouts one trigger sets, in the order the callback sets them. */
  function TriggerSchedule(refs: Refs): (s: seq<Timeout>)
    ensures |s| <= |refs.formGroups| + 3
    ensures |s| >= (if refs.bookingCard then 1 else 0) + (if refs.radioGroup then 1 else 0)
                   + (if refs.submitButton then 1 else 0)
  {
    (if refs.bookingCard then [Timeout(BookingCard, BookingCardDelay)] else [])
    + GroupSchedule(refs.formGroups)
    + (if refs.radioGroup then [Timeout(RadioGroup, RadioGroupDelay)] else [])
    + (if refs.submitButton then [Timeout(SubmitButton, SubmitButtonDelay)] else [])
  }

  /** An element is scheduled exactly when it is mounted, and the section
      itself is never scheduled (it is marked at once). */
  lemma TriggerSchedulePresence(refs: Refs)
    ensures Timeout(BookingCard, BookingCardDelay) in TriggerSchedule(refs) <==> refs.bookingCard
    ensures Timeout(RadioGroup, RadioGroupDelay) in TriggerSchedule(refs) <==> refs.radioGroup
    ensures Timeout(SubmitButton, SubmitButtonDelay) in TriggerSchedule(refs) <==> refs.submitButton
    ensures forall t :: t in TriggerSchedule(refs) ==> t.target != FormSection
  {
    GroupScheduleSound(refs.formGroups);
  }

  /** The booking card comes before every form group. */
  lemma BookingCardFirst(refs: Refs)
    ensures forall t :: t in TriggerSchedule(refs) && t.target.FormGroup? ==> BookingCardDelay < t.delay
  {
    GroupScheduleSound(refs.formGroups);
  }

  /** The timeouts an observer callback with `entries` sets. */
  function BatchSchedule(entries: seq<Entry>, refs: Refs): (s: seq<Timeout>)
    ensures |s| <= |entries| * |TriggerSchedule(refs)|
    decreases |entries|
  {
    if entries == [] then []
    else
      var n := |entries| - 1;
      var perTrigger := |TriggerSchedule(refs)|;
      assert |entries| * perTrigger == n * perTrigger + perTrigger;
      BatchSchedule(entries[..n], refs) + (if Triggers(entries[n]) then TriggerSchedule(refs) else [])
  }

  /** A batch without a triggering entry sets no timeout. */
  lemma {:induction false} QuietBatchSchedulesNothing(entries: seq<Entry>, refs: Refs)
    requires forall k :: 0 <= k < |entries| ==> !Triggers(entries[k])
    ensures BatchSchedule(entries, refs) == []
    decreases |entries|
  {
    if entries != [] {
      var n := |entries| - 1;
      assert forall k :: 0 <= k < n ==> entries[..n][k] == entries[k];
      QuietBatchSchedulesNothing(entries[..n], refs);
    }
  }

  predicate AnyTriggers(entries: seq<Entry>) {
    exists k :: 0 <= k < |entries| && Triggers(entries[k])
  }

  /** The hook's observer. `animated` is the set of elements that carry the
      'animate' class; `timeouts` the class additions scheduled and not yet run. */
  class FormReveal {
    var observing: bool
    var animated: set<Target>
    var timeouts: seq<Timeout>

    /** The effect body: the section is observed only if it is mounted. */
    constructor (sectionMounted: bool)
      ensures observing == sectionMounted && animated == {} && timeouts == []
    {
      observing := sectionMounted;
      animated := {};
      timeouts := [];
    }

    /** The cascade for one triggering entry. */
    method Trigger(refs: Refs)
      modifies this`animated, this`timeouts
      ensures animated == old(animated) + {FormSection}
      ensures timeouts == old(timeouts) + TriggerSchedule(refs)
    {
      animated := animated + {FormSection};
      ScheduleIfMounted(refs.bookingCard, Timeout(BookingCard, BookingCardDelay));
      ghost var t1 := timeouts;
      ScheduleGroups(refs.formGroups);
      ghost var t2 := timeouts;
      ScheduleIfMounted(refs.radioGroup, Timeout(RadioGroup, RadioGroupDelay));
      ghost var t3 := timeouts;
      ScheduleIfMounted(refs.submitButton, Timeout(SubmitButton, SubmitButtonDelay));
      calc {
        timeouts;
        t3 + (if refs.submitButton then [Timeout(SubmitButton, SubmitButtonDelay)] else []);
        t2 + (if refs.radioGroup then [Timeout(RadioGroup, RadioGroupDelay)] else [])
           + (if refs.submitButton then [Timeout(SubmitButton, SubmitButtonDelay)] else []);
        t1 + GroupSchedule(refs.formGroups)
           + (if refs.radioGroup then [Timeout(RadioGroup, RadioGroupDelay)] else [])
           + (if refs.submitButton then [Timeout(SubmitButton, SubmitButtonDelay)] else []);
        old(timeouts) + TriggerSchedule(refs);
      }
    }

    /** `if (ref.current) setTimeout(...)` for a single element. */
    method ScheduleIfMounted(mounted: bool, t: Timeout)
      modifies this`timeouts
      ensures timeouts == old(timeouts) + (if mounted then [t] else [])
    {
      if mounted {
        timeouts := timeouts + [t];
      }
    }

    /** The loop over the form group refs: a timeout per mounted group. */
    method ScheduleGroups(groups: seq<bool>)
      modifies this`timeouts
      ensures timeouts == old(timeouts) + GroupSchedule(groups)
    {
      for i := 0 to |groups|
        invariant timeouts == old(timeouts) + GroupSchedule(groups[..i])
      {
        if groups[i] {
          timeouts := timeouts + [Timeout(FormGroup(i), 300 + i * 100)];
        }
        assert groups[..i + 1][..i] == groups[..i];
      }
      assert groups[..|groups|] == groups;
    }

    /** The observer callback. A disconnected observer delivers nothing. */
    method OnEntries(entries: seq<Entry>, refs: Refs)
      modifies this`animated, this`timeouts
      ensures animated == old(animated) + (if observing && AnyTriggers(entries) then {FormSection} else {})
      ensures timeouts == old(timeouts) + (if observing then BatchSchedule(entries, refs) else [])
    {
      if observing {
        for i := 0 to |entries|
          invariant animated == old(animated) + (if AnyTriggers(entries[..i]) then {FormSection} else {})
          invariant timeouts == old(timeouts) + BatchSchedule(entries[..i], refs)
        {
          assert entries[..i + 1][..i] == entries[..i];
          if entries[i].isIntersecting {
            if entries[i].isFormSection {
              Trigger(refs);
            }
          }
          assert AnyTriggers(entries[..i + 1]) == (AnyTriggers(entries[..i]) || Triggers(entries[i])) by {
            assert entries[..i + 1][i] == entries[i];
            assert forall k :: 0 <= k < i ==> entries[..i + 1][k] == entries[..i][k];
          }
        }
        assert entries[..|entries|] == entries;
      }
    }

    /** Scheduled timeout `k` runs. A form group timeout holds the element
        itself; the others re-read their ref and do nothing when it has
        been unmounted since. */
    method OnTimeout(k: nat, stillMounted: bool)
      requires k < |timeouts|
      modifies this`animated, this`timeouts
      ensures timeouts == old(timeouts[..k] + timeouts[k + 1..])
      ensures var t := old(timeouts[k]).target;
        animated == old(animated) + (if t.FormGroup? || stillMounted then {t} else {})
    {
      var t := timeouts[k].target;
      timeouts := timeouts[..k] + timeouts[k + 1..];
      if t.FormGroup? || stillMounted {
        animated := animated + {t};
      }
    }

    /** Cleanup disconnects the observer; timeouts already set still run. */
    method Disconnect()
      modifies this`observing
      ensures !observing
    {
      observing := false;
    }
  }
}

=== FILE: wrappers.dfy ===
/** Small helper datatypes shared by the other modules. */
module Wrappers {

  /** A value that may be absent: an unmounted element, a missing attribute,
      an option the caller did not pass. */
  datatype Option<+T> = None | Some(value: T) {

    /** The value, or `default` when absent. */
    function GetOr(default: T): T {
      match this
      case Some(v) => v
      case None => default
    }
  }
}
